=== FILE: README.md ===
# Forecast graph layer: layout model

This project models one redraw of the forecast graph layer of a Pebble
weather watchface (`graph_update_proc`). It covers the canvas of `w` by `h`
pixels, the hour of the first forecast entry, and `n` hourly samples. Each
sample is a temperature (`int16_t`) and a probability of precipitation
(`uint8_t`, a percentage). From these the layer computes:

- the temperature polyline, one point per entry;
- the precipitation area: one point per entry, followed by two points that
  close the area along the baseline;
- the hour-axis decoration of every entry: an hour label, a tick, or nothing;
- the ordered list of drawing commands it issues for them.

The files are:

- `c_numerics.dfy` (`CNumerics`): the C semantics the layer depends on. These
  are the truncating float-to-`int` conversion and C99's truncating `/` and `%`.
- `forecast.dfy` (`Forecast`): samples, and the lowest and highest temperature.
- `geometry.dfy` (`Geometry`): the layout constants, the x of each entry, and
  the scaling of both quantities onto the y axis.
- `labels.dfy` (`Labels`): the label interval and the label/tick rule.
- `graph_layer.dfy` (`GraphLayer`): the scaling of a redraw, the chart, and the
  command list.
- `graph_properties.dfy` (`GraphProperties`): properties of a whole redraw.
  Most are shown for `Build` under any fitting scaling, then carried over to
  `Layout`.

Floating arithmetic is exact `real` arithmetic followed by truncation toward
zero. Where the C code has no defined behaviour, `Layout` returns an error:

- `NoEntries`: no samples, so the sample arrays and the temperature point array have length zero (lines 21-22, 27).
- `SingleEntry`: one sample, so the spacing divides by zero.
- `ZeroEntryWidth`: a zero spacing, which is the divisor of the label interval.
- `FlatTemperatures`: a zero temperature range, which is the divisor of the
  temperature scale.
- `ZeroLabelInterval`: a label interval of zero, which is the divisor of `%`.

## Model

| member | source | states |
|---|---|---|
| CNumerics.Trunc | src/c/layers/graph_layer.c:49 | Converting a float to `int` rounds toward zero: the result is within one of the value, on the zero side. |
| CNumerics.TruncMonotone | src/c/layers/graph_layer.c:49 | Truncation keeps the order of two values, so a larger exact x or height never becomes a smaller pixel. |
| CNumerics.Quot | src/c/layers/graph_layer.c:73 | C's `/` on `int`: the magnitude is the rounded-down quotient of the magnitudes, and the sign is negative only for operands of opposite sign. |
| CNumerics.Rem | src/c/layers/graph_layer.c:61 | C's `%` on `int`: it is smaller in magnitude than the divisor and takes the sign of the dividend (zero for a zero dividend). |
| CNumerics.QuotRemIdentity | src/c/layers/graph_layer.c:61-73 | C's `/` and `%` fit together: `(a / b) * b + a % b == a` for every non-zero divisor. |
| CNumerics.QuotRemNonNegative | src/c/layers/graph_layer.c:64 | For a non-negative dividend and a positive divisor, C's `/` and `%` agree with the mathematical quotient and remainder. |
| Forecast.MinTemp | src/c/layers/graph_layer.c:31-32 | The lowest temperature is at most every sample's temperature, and some sample has it. |
| Forecast.MaxTemp | src/c/layers/graph_layer.c:31-32 | The highest temperature is at least every sample's temperature, and some sample has it. |
| Forecast.RangeZeroIffFlat | src/c/layers/graph_layer.c:33 | The range `hi - lo` is never negative. It is zero exactly when all samples have the same temperature. |
| Geometry.EntryWidthSign | src/c/layers/graph_layer.c:42 | With two or more entries the spacing is positive exactly when the canvas is wider than both margins, and zero exactly when `w == 14`. |
| Geometry.EntryXEnds | src/c/layers/graph_layer.c:49-83 | Entry 0 sits on the left margin (x = 7). The last entry sits exactly at `w - 7`, the x of the first closing point. |
| Geometry.EntryXMonotone | src/c/layers/graph_layer.c:49 | With a non-negative spacing, x never decreases with the entry index. |
| Geometry.EntryXNoDrift | src/c/layers/graph_layer.c:49 | Each x is computed from its own index. The distance between any two entries is therefore within one pixel of the exact distance, and rounding does not build up. |
| Geometry.EntryXInside | src/c/layers/graph_layer.c:42-49 | With a positive spacing, every entry's x lies between the two margins. |
| Geometry.PortionBounds | src/c/layers/graph_layer.c:53-58 | A fraction between 0 and 1 of a non-negative span lies in the span. A zero fraction gives 0, and the whole fraction gives the span. |
| Geometry.PrecipYInside | src/c/layers/graph_layer.c:52-54 | For probabilities 0..100 and `h >= 9`, y lies in `0..h-9`. 0% lands on the baseline and 100% at the top. |
| Geometry.PrecipYMonotone | src/c/layers/graph_layer.c:53-54 | A higher probability is never drawn lower. |
| Geometry.TempYInside | src/c/layers/graph_layer.c:57-59 | With a positive range and `h >= 23`, every temperature in `lo..hi` plots in `7..h-16`. `lo` maps to `h - 16` and `hi` to `7`. |
| Geometry.TempYMonotone | src/c/layers/graph_layer.c:57-59 | A warmer temperature is never drawn lower. |
| Labels.Ceil | src/c/layers/graph_layer.c:46 | The true ceiling, which the comment at this line says the code computes: the least integer not below the value. |
| Labels.EntriesPerLabelLeast | src/c/layers/graph_layer.c:46-47 | For a positive spacing `e`, the interval is `floor(16 / e) + 1`. It is at least 1, and it is the least number of entries spanning more than 16 pixels. |
| Labels.EntriesPerLabelAtMostCeiling | src/c/layers/graph_layer.c:46-47 | The interval never exceeds the ceiling of `17 / e`. |
| Labels.EntriesPerLabelCeilingWhenWhole | src/c/layers/graph_layer.c:46-47 | For a whole-number spacing, the interval is exactly the ceiling of `17 / e`, as the comment intends. |
| Labels.EntriesPerLabelBelowCeiling | src/c/layers/graph_layer.c:42-47 | Counterexample: 24 entries on a 144-pixel canvas give spacing 130/23 and interval 3. The ceiling of `17 / e` is 4, and 3 entries span less than 17 pixels. |
| Labels.MarkLabels | src/c/layers/graph_layer.c:61-64 | Entry `i` is labelled exactly when the interval divides `i`. For a non-negative start hour the label reads `(start + i) % 24`, in `0..23`. |
| Labels.MarkTicks | src/c/layers/graph_layer.c:73 | Entry `i` gets a tick exactly when `k >= 2` and `i % k == k - k / 2`. An interval of 1 has no ticks. |
| Labels.OneTickBetweenLabels | src/c/layers/graph_layer.c:61-78 | Between two consecutive labels there is exactly one tick, at offset `k - k / 2`. Every other entry between them is bare. |
| Labels.MarksOnFullWidthDay | src/c/layers/graph_layer.c:61-78 | With interval 3 from 06:00: labels 6, 9 and 3 at entries 0, 3 and 21, ticks at entries 2 and 23, and nothing at entry 1. |
| GraphLayer.MarkCommands | src/c/layers/graph_layer.c:61-78 | Decoration issues one command per labelled or ticked entry. Each is a text, or a 4-pixel line hanging down from the baseline. `GraphLayer.MarkCommandsAt` states which command each entry issues. |
| GraphLayer.DecoratedAppend | src/c/layers/graph_layer.c:61-78 | The number of decorated entries of two runs of entries is the sum of their counts. |
| GraphLayer.DecoratedPrefix | src/c/layers/graph_layer.c:61-78 | Each entry adds one to the count of decorated entries before it exactly when it is labelled or ticked, and no prefix has more than the whole. |
| GraphLayer.MarkCommandsAt | src/c/layers/graph_layer.c:61-78 | The command of a decorated entry `i` comes right after those of the decorated entries before it. A labelled entry draws its hour in the label box at its own x, and a ticked entry draws the tick line at its own x. |
| GraphLayer.Commands | src/c/layers/graph_layer.c:36-109 | The command order: bottom axis, left axis, the decoration commands of the entries in entry order, the filled area over all `n + 2` points, the open precipitation outline over the first `n` points only (width 1), and the temperature outline (width 3). |
| GraphLayer.EntryCommand | src/c/layers/graph_layer.c:37-78 | In the full command list, a decorated entry `i` has its command at position 2 plus the number of decorated entries before it: its hour label or its tick, at its own x. |
| GraphLayer.Plan | src/c/layers/graph_layer.c:19-47 | No samples, one sample, and each undefined division is a distinct error, with its exact condition (each an if-and-only-if). A defined scaling has spacing `(w - 14) / (n - 1)`, the code's label interval, and the range from the coldest to the warmest sample. |
| GraphLayer.TempCurve | src/c/layers/graph_layer.c:57-59 | There is one temperature point per sample, each at its entry's x and at the height of its own temperature. |
| GraphLayer.PrecipCurve | src/c/layers/graph_layer.c:52-54 | There is one precipitation point per sample, each at its entry's x and at the height of its own probability. |
| GraphLayer.Build | src/c/layers/graph_layer.c:48-83 | The chart has `n` temperature points, `n + 2` precipitation points ending with `(w - 7, h - 9)` then `(7, h - 9)`, and one decoration per entry. |
| GraphLayer.Layout | src/c/layers/graph_layer.c:13-83 | The layout is each error exactly under that error's condition: no samples, one sample, a zero spacing, equal temperatures, or a zero label interval. On a canvas wider than its margins it is defined exactly when there are two or more samples with different temperatures. |
| GraphProperties.LayoutNeedsPlan | src/c/layers/graph_layer.c:19-47 | For every sample sequence, the layout is defined exactly when a scaling exists. |
| GraphProperties.LayoutBuilds | src/c/layers/graph_layer.c:31-83 | With a scaling, the layout is the chart built under it. The scaling fits every sample, with range `MinTemp..MaxTemp` and spacing `(w - 14) / (n - 1)`. |
| GraphProperties.BuildShape | src/c/layers/graph_layer.c:27-83 | Under any scaling, the chart has the point counts and closing points above, and the same x for both curves at each entry. |
| GraphProperties.ChartShape | src/c/layers/graph_layer.c:27-83 | A layout with a scaling has `n` and `n + 2` points with the closing points last, and a shared x per entry. The first x is 7, and the last entry's x equals the first closing point's x. |
| GraphProperties.EntryOfLayout | src/c/layers/graph_layer.c:49-59 | Entry `i` of a layout with a scaling is at the x of entry `i`, at the heights of its own temperature and probability. |
| GraphProperties.BuildX | src/c/layers/graph_layer.c:49-83 | With a positive spacing, every point, closing points included, lies between the margins, and x never decreases along either curve. |
| GraphProperties.ChartX | src/c/layers/graph_layer.c:42-83 | The same as `BuildX`, for the layout of any scaling on a canvas wider than its margins. |
| GraphProperties.BuildPrecip | src/c/layers/graph_layer.c:52-83 | With probabilities 0..100, the whole precipitation area lies between the top and the baseline. Dry entries lie on the baseline. |
| GraphProperties.ChartPrecip | src/c/layers/graph_layer.c:52-83 | The same as `BuildPrecip`, for the layout of any scaling with `h >= 9`. |
| GraphProperties.BuildTemps | src/c/layers/graph_layer.c:57-59 | Under a fitting scaling, the temperature curve lies in its band, with `lo` on the bottom edge and `lo + range` on the top edge. A warmer sample is never drawn below a colder one. |
| GraphProperties.ChartTemps | src/c/layers/graph_layer.c:31-59 | For the layout of any scaling with `h >= 23`, every temperature y lies in `7..h-16`. The coldest samples lie at `h - 16` and the warmest at `7`, and y never rises as temperature falls. |
| GraphProperties.BuildMarks | src/c/layers/graph_layer.c:61-78 | For a positive interval and a non-negative start hour, every entry's decoration follows the rule: a label with hour `(start + i) % 24` exactly at multiples of `k`, and a tick exactly at offset `k - k / 2` when `k >= 2`. |
| GraphProperties.ChartMarks | src/c/layers/graph_layer.c:46-78 | With a positive spacing, the interval of the layout of any scaling is at least 1, and its decorations follow the rule of `BuildMarks`. |
| GraphProperties.RedrawCommands | src/c/layers/graph_layer.c:36-109 | A redraw with a scaling issues both axes, then for each decorated entry its hour label or tick at the x of that entry, the fill over `n + 2` points, the outline over the first `n`, and the temperature outline over `n` points. |
| GraphProperties.FullWidthDay | src/c/layers/graph_layer.c:42-78 | 24 entries on a 144-pixel canvas from 06:00 with varying temperatures: the layout is defined, with labels at entries 0, 3 and 21 and ticks at entries 2 and 23. |

## Left out

- Pebble graphics state (lines 36, 43-44, 91, 97-98, 107-108): stroke, fill and text colours and the font. Each colour is fixed by the command's role in the list, not by its kind: the two axes are orange, hour labels white, ticks light grey, the precipitation fill cobalt blue, the precipitation outline picton blue and the temperature outline red. The font and alignment are the same for every label. `Command` carries none of them.
- Text formatting (line 64): the label is kept as its hour number. The `snprintf` into a 4-byte buffer is a foreign call.
- Rasterisation of lines, text and paths (lines 37-39, 65-71, 92, 99, 109): host graphics code. The model stops at the command list.
- `GPath` creation (lines 90, 96, 106): the paths are never destroyed. This is a resource leak outside a pure model.
- Layer lifecycle and the static handle (lines 11, 112-125): host plumbing with no layout logic.
- Storage reads (lines 19-24): the sample count, start hour and trends become the parameters `start` and `s`. Both trends have length `n` by construction, because each `Sample` holds one temperature and one probability.
- `min_max` (line 32): its body is not part of this model. `Forecast.MinTemp` and `Forecast.MaxTemp` define the minimum and maximum that its name and its use at lines 30-33 indicate.
- IEEE floating-point rounding (single precision at lines 42, 47, 49 and 58; double precision at line 53, where `100.0` is a `double`): exact rationals are used, then truncated. A result that differs by one pixel because of float rounding is not modelled. For the same reason, `Geometry.EntryXEnds` puts the last entry exactly on `w - 7`.
- Error results: the C program has undefined behaviour in these cases. The model reports them as `LayoutError` values and does not predict what the device draws.
- Lowest and highest temperature all equal: the code divides by a zero range (line 58). The model reports `FlatTemperatures`.
- Fewer than two samples: the code has no check. With none, it declares arrays of length zero (lines 21-22, 27) and asks `min_max` for the extremes of an empty trend (line 32); the model reports `NoEntries`. With one sample the spacing divides by zero (line 42); the model reports `SingleEntry`.
- Tick positions: the code puts ticks at `i % k == k - k / 2`, that is at entries 2, 5 and 8 for `k = 3`. The model follows the code.
- Point coordinates: `GPoint` and `GRect` hold `int16_t` coordinates (lines 54, 59, 67, 76-77, 82-83). `Point` holds unbounded integers, so the model assumes every coordinate fits in 16 bits and does not model a wrap-around.
- Label interval: the code's "round up" computes `floor(16 / e) + 1`, which is the ceiling of `17 / e` only for whole `e`. The model follows the code. `Labels.EntriesPerLabelBelowCeiling` shows the difference on a full-width day.
- GraphProperties.ChartMarks: requires a scaling (which exists exactly when the layout is defined), as well as a canvas wider than its margins and a non-negative start hour. With a narrower canvas the interval can be negative and the C `%` rule no longer matches the mathematical one.
- Labels.MarkLabels: states the label's hour only for a non-negative start hour. The stored start hour lies in `0..23`.

=== FILE: c_numerics.dfy ===
/**
 The integer semantics of C that the graph layer relies on: the width of the
 sample types, the truncating conversion of a floating value to `int`, and
 the truncating `/` and `%` of C99 (Dafny's own are Euclidean).
 Floating values are modelled by exact `real`s.
 */
module CNumerics {

  /** `int16_t`, the type of a stored temperature. */
  type Int16 = x: int | -0x8000 <= x < 0x8000

  /** `uint8_t`, the type of a stored precipitation probability. */
  type UInt8 = x: int | 0 <= x < 0x100

  function Abs(x: int): (a: nat)
    ensures a == x || a == -x
  {
    if x < 0 then -x else x
  }

  /** Conversion of a floating value to `int`: rounds toward zero. */
  function Trunc(r: real): (t: int)
    ensures 0.0 <= r ==> t as real <= r < t as real + 1.0
    ensures r <= 0.0 ==> t as real - 1.0 < r <= t as real
  {
    if r < 0.0 then -((-r).Floor) else r.Floor
  }

  /** Truncation never reverses the order of two values. */
  lemma TruncMonotone(a: real, b: real)
    requires a <= b
    ensures Trunc(a) <= Trunc(b)
  {
  }

  /** A value between zero and a whole number `n` truncates into `0..n`. */
  lemma TruncWithin(x: real, n: int)
    requires 0.0 <= x <= n as real
    ensures 0 <= Trunc(x) <= n
  {
  }

  /** The C99 quotient `a / b`: the magnitude of the exact quotient rounded
      down, negative exactly when the operands have opposite signs. */
  function Quot(a: int, b: int): (q: int)
    requires b != 0
    ensures Abs(q) == Abs(a) / Abs(b)
    ensures q < 0 ==> (a < 0) != (b < 0)
    ensures q > 0 ==> (a < 0) == (b < 0)
  {
    var A: int, B: int := Abs(a), Abs(b);
    assert 0 < B;
    var m := A / B;
    assert 0 <= m;
    if (a < 0) == (b < 0) then m else -m
  }

  /** The C99 remainder `a % b`: it takes the sign of the dividend. */
  function Rem(a: int, b: int): (r: int)
    requires b != 0
    ensures 0 <= a ==> 0 <= r < Abs(b)
    ensures a <= 0 ==> 0 <= -r < Abs(b)
  {
    ModOfOffset(0, Abs(b), 0);
    if a < 0 then -(Abs(a) % Abs(b)) else Abs(a) % Abs(b)
  }

  /** C99 guarantees that `(a / b) * b + a % b` gives back `a`. */
  lemma QuotRemIdentity(a: int, b: int)
    requires b != 0
    ensures Quot(a, b) * b + Rem(a, b) == a
  {
    var A: int, B: int := Abs(a), Abs(b);
    var m := A / B;
    assert A == m * B + A % B;
    if 0 <= a && 0 < b {
      assert Quot(a, b) * b == m * B;
    } else if 0 <= a {
      assert Quot(a, b) * b == (-m) * (-B) == m * B;
    } else if 0 < b {
      assert Quot(a, b) * b == (-m) * B == -(m * B);
    } else {
      assert Quot(a, b) * b == m * (-B) == -(m * B);
    }
  }

  /** On a non-negative dividend and a positive divisor C and Dafny agree. */
  lemma QuotRemNonNegative(a: int, b: int)
    requires 0 <= a && 0 < b
    ensures Quot(a, b) == a / b
    ensures Rem(a, b) == a % b
  {
  }

  /** A whole number of steps `k` is never less than one step. */
  lemma MulAtLeast(x: int, k: int)
    requires 1 <= x && 0 < k
    ensures k <= x * k
  {
    assert x * k == (x - 1) * k + k;
  }

  /** The Euclidean quotient and remainder of `m * k + r` are `m` and `r`
      when `0 <= r < k`. */
  lemma ModOfOffset(m: int, k: int, r: int)
    requires 0 < k && 0 <= r < k
    ensures (m * k + r) / k == m
    ensures (m * k + r) % k == r
  {
    var a := m * k + r;
    var q, s := a / k, a % k;
    assert a == q * k + s;
    var d := m - q;
    assert d * k == s - r;
    if d >= 1 {
      MulAtLeast(d, k);
      assert false;
    } else if d <= -1 {
      assert (-d) * k == -(d * k);
      MulAtLeast(-d, k);
      assert false;
    }
  }
}

=== FILE: forecast.dfy ===
/**
 The forecast samples the graph layer reads from storage, and the
 temperature range it derives from them. How the samples are stored and
 loaded is not part of this model: they arrive as a sequence.
 */
module Forecast {
  import opened CNumerics

  /** One forecast entry: the temperature and the probability of
      precipitation (a percentage) for one hour. */
  datatype Sample = Sample(temp: Int16, precip: UInt8)

  /** The lowest temperature among the samples, as `min_max` reports it. */
  function MinTemp(s: seq<Sample>): (lo: int)
    requires |s| > 0
    ensures forall i :: 0 <= i < |s| ==> lo <= s[i].temp
    ensures exists i :: 0 <= i < |s| && s[i].temp == lo
  {
    if |s| == 1 then s[0].temp
    else
      var rest := MinTemp(s[1..]);
      assert forall i :: 1 <= i < |s| ==> s[i] == s[1..][i - 1];
      if s[0].temp <= rest then s[0].temp else rest
  }

  /** The highest temperature among the samples, as `min_max` reports it. */
  function MaxTemp(s: seq<Sample>): (hi: int)
    requires |s| > 0
    ensures forall i :: 0 <= i < |s| ==> s[i].temp <= hi
    ensures exists i :: 0 <= i < |s| && s[i].temp == hi
  {
    if |s| == 1 then s[0].temp
    else
      var rest := MaxTemp(s[1..]);
      assert forall i :: 1 <= i < |s| ==> s[i] == s[1..][i - 1];
      if rest <= s[0].temp then s[0].temp else rest
  }

  /** Every sample has the same temperature. */
  predicate Flat(s: seq<Sample>)
  {
    forall i :: 0 <= i < |s| ==> s[i].temp == s[0].temp
  }

  /** The temperature range `hi - lo` is zero exactly when every sample has
      the same temperature. */
  lemma {:induction false} RangeZeroIffFlat(s: seq<Sample>)
    requires |s| > 0
    ensures MaxTemp(s) - MinTemp(s) >= 0
    ensures MaxTemp(s) == MinTemp(s) <==> Flat(s)
  {
    if MaxTemp(s) == MinTemp(s) {
      forall i | 0 <= i < |s|
        ensures s[i].temp == s[0].temp
      {
        assert MinTemp(s) <= s[i].temp <= MaxTemp(s);
        assert MinTemp(s) <= s[0].temp <= MaxTemp(s);
      }
    } else {
      var j :| 0 <= j < |s| && s[j].temp == MinTemp(s);
      var k :| 0 <= k < |s| && s[k].temp == MaxTemp(s);
      assert s[j].temp != s[k].temp;
    }
  }
}

=== FILE: geometry.dfy ===
/**
 The pixel geometry of the forecast graph: the layout constants, the
 horizontal placement of the entries, and the scaling of precipitation and
 temperature onto the vertical axis. The floating computations of
 `graph_update_proc` are exact `real` arithmetic here, followed by the truncating
 conversion to `int` that C performs on assignment.
 */
module Geometry {
  import opened CNumerics

  /** Whitespace at the top of the 14 pt font, lifted off each label box. */
  const Font14Offset := 5
  /** The minimum width an hour label should cover. */
  const LabelPadding := 17
  /** The height of the bottom axis, where the hour labels go. */
  const BottomAxisH := 9
  /** The width of the side margins around the graph entries. */
  const MarginGraphW := 7
  /** The height of the margins above and below the temperature plot. */
  const MarginTempH := 7

  datatype Point = Point(x: int, y: int)

  /** The y coordinate of the bottom axis. */
  function Baseline(h: int): int
  {
    h - BottomAxisH
  }

  /** The horizontal distance between consecutive entries; `n` is the
      number of entries, and the division is undefined for `n == 1`. */
  function EntryWidth(w: int, n: int): real
    requires n != 1
  {
    (w - 2 * MarginGraphW) as real / (n - 1) as real
  }

  /** The spacing has the sign of the room left between the margins. */
  lemma EntryWidthSign(w: int, n: int)
    requires 2 <= n
    ensures 0.0 < EntryWidth(w, n) <==> 2 * MarginGraphW < w
    ensures EntryWidth(w, n) == 0.0 <==> w == 2 * MarginGraphW
  {
    var e := EntryWidth(w, n);
    assert e * (n - 1) as real == (w - 2 * MarginGraphW) as real;
  }

  /** The x coordinate of entry `i`, computed from `i` alone. */
  function EntryX(i: int, e: real): int
  {
    Trunc(MarginGraphW as real + i as real * e)
  }

  /** The part `num / den` of `span`, in exact arithmetic. */
  function Portion(num: int, den: int, span: int): real
    requires den != 0
  {
    num as real / den as real * span as real
  }

  /** The height in pixels of a precipitation probability `p` (percent). */
  function PrecipHeight(p: int, h: int): int
  {
    Trunc(Portion(p, 100, h - BottomAxisH))
  }

  /** The y coordinate of the precipitation curve for probability `p`. */
  function PrecipY(p: int, h: int): int
  {
    Baseline(h) - PrecipHeight(p, h)
  }

  /** The vertical span available to the temperature curve. */
  function TempSpan(h: int): int
  {
    h - MarginTempH * 2 - BottomAxisH
  }

  /** The height in pixels of temperature `t` above the lowest one, `lo`;
      `range` is the distance from the lowest to the highest temperature. */
  function TempHeight(t: int, lo: int, range: int, h: int): int
    requires range != 0
  {
    Trunc(Portion(t - lo, range, TempSpan(h)))
  }

  /** The y coordinate of the temperature curve for temperature `t`. */
  function TempY(t: int, lo: int, range: int, h: int): int
    requires range != 0
  {
    h - TempHeight(t, lo, range, h) - MarginTempH - BottomAxisH
  }

  /** Scaling by a non-negative factor keeps order. */
  lemma ScaleMonotone(a: real, b: real, c: real)
    requires a <= b && 0.0 <= c
    ensures a * c <= b * c
  {
    assert b * c - a * c == (b - a) * c;
  }

  /** A part between none and all of a non-negative span lies within the span;
      a zero part gives 0, and the whole part gives the span. */
  lemma PortionBounds(num: int, den: int, span: int)
    requires 0 <= num <= den && 0 < den && 0 <= span
    ensures 0.0 <= Portion(num, den, span) <= span as real
    ensures num == 0 ==> Portion(num, den, span) == 0.0
    ensures num == den ==> Portion(num, den, span) == span as real
  {
    var f := num as real / den as real;
    assert f * den as real == num as real;
    assert 0.0 <= f;
    if f > 1.0 {
      ScaleMonotone(1.0, f, den as real);
      assert false;
    }
    ScaleMonotone(0.0, f, span as real);
    ScaleMonotone(f, 1.0, span as real);
    assert Portion(num, den, span) == f * span as real;
  }

  /** A larger part of the same span is never smaller. */
  lemma PortionMonotone(a: int, b: int, den: int, span: int)
    requires a <= b && 0 < den && 0 <= span
    ensures Portion(a, den, span) <= Portion(b, den, span)
  {
    var f, g := a as real / den as real, b as real / den as real;
    assert f * den as real == a as real;
    assert g * den as real == b as real;
    if g < f {
      ScaleMonotone(g, f, den as real);
      assert false;
    }
    ScaleMonotone(f, g, span as real);
    assert Portion(a, den, span) == f * span as real;
    assert Portion(b, den, span) == g * span as real;
  }

  /** The first entry sits on the left margin and, in exact arithmetic, the
      last one on the right margin, where the precipitation area closes. */
  lemma EntryXEnds(w: int, n: int)
    requires 2 <= n
    ensures EntryX(0, EntryWidth(w, n)) == MarginGraphW
    ensures EntryX(n - 1, EntryWidth(w, n)) == w - MarginGraphW
  {
    var e := EntryWidth(w, n);
    assert (n - 1) as real * e == (w - 2 * MarginGraphW) as real;
    assert MarginGraphW as real + (n - 1) as real * e == (w - MarginGraphW) as real;
  }

  /** With a non-negative spacing a later entry is never left of an earlier one. */
  lemma EntryXMonotone(i: int, j: int, e: real)
    requires 0 <= i <= j && 0.0 <= e
    ensures EntryX(i, e) <= EntryX(j, e)
  {
    ScaleMonotone(0.0, i as real, e);
    ScaleMonotone(i as real, j as real, e);
    TruncMonotone(MarginGraphW as real + i as real * e, MarginGraphW as real + j as real * e);
  }

  /** Each x coordinate is rounded on its own, so the distance between any two
      entries is within one pixel of the exact distance: rounding does not
      accumulate along the axis. */
  lemma EntryXNoDrift(i: int, j: int, e: real)
    requires 0 <= i <= j && 0.0 <= e
    ensures (j - i) as real * e - 1.0 < (EntryX(j, e) - EntryX(i, e)) as real < (j - i) as real * e + 1.0
  {
    ScaleMonotone(0.0, i as real, e);
    ScaleMonotone(0.0, j as real, e);
    assert (j - i) as real * e == j as real * e - i as real * e;
  }

  /** Every entry of a graph with positive spacing lies between the margins. */
  lemma EntryXInside(w: int, n: int, i: int)
    requires 2 <= n && 2 * MarginGraphW < w && 0 <= i < n
    ensures MarginGraphW <= EntryX(i, EntryWidth(w, n)) <= w - MarginGraphW
  {
    var e := EntryWidth(w, n);
    assert 0.0 < e;
    EntryXEnds(w, n);
    EntryXMonotone(0, i, e);
    EntryXMonotone(i, n - 1, e);
  }

  /** A probability in 0..100 plots between the top of the canvas and the
      baseline; 0 lies on the baseline and 100 at the top. */
  lemma PrecipYInside(p: int, h: int)
    requires 0 <= p <= 100 && BottomAxisH <= h
    ensures 0 <= PrecipY(p, h) <= Baseline(h)
    ensures p == 0 ==> PrecipY(p, h) == Baseline(h)
    ensures p == 100 ==> PrecipY(p, h) == 0
  {
    PortionBounds(p, 100, h - BottomAxisH);
    TruncWithin(Portion(p, 100, h - BottomAxisH), h - BottomAxisH);
  }

  /** A higher probability is never drawn lower. */
  lemma PrecipYMonotone(p: int, q: int, h: int)
    requires p <= q && BottomAxisH <= h
    ensures PrecipY(q, h) <= PrecipY(p, h)
  {
    PortionMonotone(p, q, 100, h - BottomAxisH);
    TruncMonotone(Portion(p, 100, h - BottomAxisH), Portion(q, 100, h - BottomAxisH));
  }

  /** With a non-zero range and a canvas tall enough for the margins, every
      temperature in `lo..lo + range` plots inside the temperature band; the
      lowest lies on its bottom edge and the highest on its top edge. */
  lemma TempYInside(t: int, lo: int, range: int, h: int)
    requires 0 < range && lo <= t <= lo + range
    requires MarginTempH * 2 + BottomAxisH <= h
    ensures MarginTempH <= TempY(t, lo, range, h) <= Baseline(h) - MarginTempH
    ensures t == lo ==> TempY(t, lo, range, h) == Baseline(h) - MarginTempH
    ensures t == lo + range ==> TempY(t, lo, range, h) == MarginTempH
  {
    PortionBounds(t - lo, range, TempSpan(h));
    TruncWithin(Portion(t - lo, range, TempSpan(h)), TempSpan(h));
  }

  /** A higher temperature is never drawn lower. */
  lemma TempYMonotone(t: int, u: int, lo: int, range: int, h: int)
    requires 0 < range && t <= u
    requires MarginTempH * 2 + BottomAxisH <= h
    ensures TempY(u, lo, range, h) <= TempY(t, lo, range, h)
  {
    PortionMonotone(t - lo, u - lo, range, TempSpan(h));
    TruncMonotone(Portion(t - lo, range, TempSpan(h)), Portion(u - lo, range, TempSpan(h)));
  }
}

=== FILE: graph_layer.dfy ===
/**
 One redraw of the forecast graph layer: from the canvas size, the hour of
 the first entry and the forecast samples, the temperature polyline, the
 closed precipitation area, the hour-axis decoration of every entry, and the
 ordered list of drawing commands issued for them.
 Where the arithmetic of `graph_update_proc` is undefined (a zero-length
 array, a division by zero, or a conversion of an infinite or NaN value),
 the layout is an error instead.
 */
module GraphLayer {
  import opened Forecast
  import opened Geometry
  import opened Labels

  datatype Result<T, E> = Ok(value: T) | Err(error: E)

  /** Why a redraw has no defined layout. */
  datatype LayoutError =
    | NoEntries          // no samples: the sample arrays and the temperature point array have length zero
    | SingleEntry        // one sample: the entry spacing divides by zero
    | ZeroEntryWidth     // the entries have no room: the label interval divides by zero
    | FlatTemperatures   // all temperatures equal: the temperature scale divides by zero
    | ZeroLabelInterval  // a negative spacing rounded the label interval to zero

  /** A text box: top-left corner, width and height. */
  datatype Rect = Rect(origin: Point, w: int, h: int)

  /** A drawing command, in the order the layer issues them. Each command's
      colour follows from its role in the list (axes orange, hour labels
      white, ticks light grey, the precipitation fill cobalt blue, its outline
      picton blue, the temperature outline red), and the font and text
      alignment are the same for every label, so none of them is carried. */
  datatype Command =
    | DrawLine(from: Point, to: Point)
    | DrawText(hour: int, box: Rect)
    | FillPath(points: seq<Point>)
    | StrokePath(points: seq<Point>, width: int)

  /** The geometry of one redraw. `precip` holds the precipitation curve
      followed by the two points that close its area along the baseline. */
  datatype Chart = Chart(temps: seq<Point>, precip: seq<Point>, marks: seq<Mark>)
  {
    /** One temperature point and one mark per entry, two more precipitation points. */
    predicate WellShaped()
    {
      |temps| == |marks| && |precip| == |marks| + 2
    }
  }

  /** The short vertical tick hanging below the baseline under `x`. */
  function TickLine(x: int, h: int): Command
  {
    DrawLine(Point(x, Baseline(h)), Point(x, Baseline(h) + 4))
  }

  /** The hour label box, 40 pixels wide and centred under `x`. */
  function LabelBox(x: int, h: int): Rect
  {
    Rect(Point(x - 20, Baseline(h) - Font14Offset), 40, BottomAxisH)
  }

  /** The commands that draw one entry's decoration. */
  function MarkCommand(x: int, m: Mark, h: int): seq<Command>
  {
    match m
    case HourLabel(hour) => [DrawText(hour, LabelBox(x, h))]
    case Tick => [TickLine(x, h)]
    case NoMark => []
  }

  /** The number of entries that carry a label or a tick. */
  function Decorated(marks: seq<Mark>): nat
  {
    if |marks| == 0 then 0
    else (if marks[0].NoMark? then 0 else 1) + Decorated(marks[1..])
  }

  /** The decoration commands of all entries, in entry order: one text per
      label, one line per tick, nothing for a bare entry. */
  function MarkCommands(xs: seq<int>, marks: seq<Mark>, h: int): (r: seq<Command>)
    requires |xs| == |marks|
    ensures |r| == Decorated(marks)
    ensures forall j :: 0 <= j < |r| ==>
      r[j].DrawText? || (r[j].DrawLine? && r[j].from.y == Baseline(h) && r[j].to == Point(r[j].from.x, Baseline(h) + 4))
  {
    if |marks| == 0 then []
    else MarkCommand(xs[0], marks[0], h) + MarkCommands(xs[1..], marks[1..], h)
  }

  /** Decorations of consecutive runs of entries add up. */
  lemma {:induction false} DecoratedAppend(a: seq<Mark>, b: seq<Mark>)
    ensures Decorated(a + b) == Decorated(a) + Decorated(b)
  {
    if a == [] {
      assert a + b == b;
    } else {
      assert (a + b)[0] == a[0];
      assert (a + b)[1..] == a[1..] + b;
      DecoratedAppend(a[1..], b);
    }
  }

  /** Entry `i` adds one to the decorated entries before it exactly when it
      carries a mark, and no prefix has more than the whole. */
  lemma {:induction false} DecoratedPrefix(marks: seq<Mark>, i: int)
    requires 0 <= i < |marks|
    ensures Decorated(marks[..i + 1]) == Decorated(marks[..i]) + (if marks[i].NoMark? then 0 else 1)
    ensures Decorated(marks[..i + 1]) <= Decorated(marks)
  {
    DecoratedAppend(marks[..i + 1], marks[i + 1..]);
    assert marks[..i + 1] + marks[i + 1..] == marks;
    DecoratedAppend(marks[..i], [marks[i]]);
    assert marks[..i] + [marks[i]] == marks[..i + 1];
    assert Decorated([marks[i]]) == (if marks[i].NoMark? then 0 else 1) by {
      assert [marks[i]][1..] == [];
    }
  }

  /** The command of entry `i` comes after those of the decorated entries
      before it, at index `Decorated(marks[..i])`: a label draws its hour in
      the box under the entry's x, and a tick draws the line under it. A bare
      entry issues nothing, so the next entry's commands start at the same
      index. */
  lemma {:induction false} MarkCommandsAt(xs: seq<int>, marks: seq<Mark>, h: int, i: int)
    requires |xs| == |marks| && 0 <= i < |marks|
    ensures Decorated(marks[..i + 1]) == Decorated(marks[..i]) + (if marks[i].NoMark? then 0 else 1)
    ensures Decorated(marks[..i + 1]) <= |MarkCommands(xs, marks, h)|
    ensures marks[i].HourLabel? ==>
      MarkCommands(xs, marks, h)[Decorated(marks[..i])] == DrawText(marks[i].hour, LabelBox(xs[i], h))
    ensures marks[i].Tick? ==>
      MarkCommands(xs, marks, h)[Decorated(marks[..i])] == TickLine(xs[i], h)
  {
    DecoratedPrefix(marks, i);
    var r := MarkCommands(xs, marks, h);
    var head := MarkCommand(xs[0], marks[0], h);
    assert r == head + MarkCommands(xs[1..], marks[1..], h);
    if 0 < i {
      MarkCommandsAt(xs[1..], marks[1..], h, i - 1);
      assert marks[..i] == [marks[0]] + marks[1..][..i - 1];
      DecoratedAppend([marks[0]], marks[1..][..i - 1]);
      assert |head| == Decorated([marks[0]]);
    }
  }

  /** The x coordinates of a sequence of points. */
  function Xs(ps: seq<Point>): (xs: seq<int>)
    ensures |xs| == |ps|
    ensures forall i :: 0 <= i < |ps| ==> xs[i] == ps[i].x
  {
    seq(|ps|, i requires 0 <= i < |ps| => ps[i].x)
  }

  /** The drawing commands of one redraw, in the order `graph_update_proc` issues them: the bottom
      axis, the left axis, the entry decorations, the filled precipitation
      area, the open precipitation curve (stroke 1) over its first `n`
      points only, and the temperature curve (stroke 3). */
  function Commands(w: int, h: int, c: Chart): (r: seq<Command>)
    requires c.WellShaped()
    ensures |r| == 5 + Decorated(c.marks)
    ensures r[0] == DrawLine(Point(0, Baseline(h)), Point(w, Baseline(h)))
    ensures r[1] == DrawLine(Point(0, 0), Point(0, Baseline(h)))
    ensures r[|r| - 3] == FillPath(c.precip)
    ensures r[|r| - 2] == StrokePath(c.precip[..|c.marks|], 1)
    ensures r[|r| - 1] == StrokePath(c.temps, 3)
    ensures forall j :: 2 <= j < |r| - 3 ==> r[j].DrawText? || r[j].DrawLine?
    ensures r[2..|r| - 3] == MarkCommands(Xs(c.temps), c.marks, h)
  {
    [DrawLine(Point(0, Baseline(h)), Point(w, Baseline(h))), DrawLine(Point(0, 0), Point(0, Baseline(h)))]
    + MarkCommands(Xs(c.temps), c.marks, h)
    + [FillPath(c.precip), StrokePath(c.precip[..|c.marks|], 1), StrokePath(c.temps, 3)]
  }

  /** Entry `i` of a chart is drawn by command `2 + Decorated(marks[..i])`,
      after the two axes and the commands of the decorated entries before it:
      its hour label in the box under its x, or its tick line. */
  lemma {:induction false} EntryCommand(w: int, h: int, c: Chart, i: int)
    requires c.WellShaped() && 0 <= i < |c.marks|
    ensures !c.marks[i].NoMark? ==> 2 + Decorated(c.marks[..i]) < |Commands(w, h, c)| - 3
    ensures c.marks[i].HourLabel? ==>
      Commands(w, h, c)[2 + Decorated(c.marks[..i])] == DrawText(c.marks[i].hour, LabelBox(c.temps[i].x, h))
    ensures c.marks[i].Tick? ==>
      Commands(w, h, c)[2 + Decorated(c.marks[..i])] == TickLine(c.temps[i].x, h)
  {
    var r, xs := Commands(w, h, c), Xs(c.temps);
    MarkCommandsAt(xs, c.marks, h, i);
    var j := Decorated(c.marks[..i]);
    if !c.marks[i].NoMark? {
      assert r[2 + j] == r[2..|r| - 3][j];
    }
  }

  /** The scaling of one redraw: the entry spacing `e`, the label interval
      `k`, and the lowest temperature `lo` with the temperature range. */
  datatype Scale = Scale(e: real, k: int, lo: int, range: int)

  /** The scaling for `n = |s|` entries across a canvas `w` pixels wide, or
      the reason the arithmetic of `graph_update_proc` has no defined value. */
  function Plan(w: int, s: seq<Sample>): (r: Result<Scale, LayoutError>)
    ensures r == Err(NoEntries) <==> |s| == 0
    ensures r == Err(SingleEntry) <==> |s| == 1
    ensures r == Err(ZeroEntryWidth) <==> 2 <= |s| && w == 2 * MarginGraphW
    ensures r == Err(FlatTemperatures) <==>
      2 <= |s| && w != 2 * MarginGraphW && Flat(s)
    ensures r == Err(ZeroLabelInterval) <==>
      && 2 <= |s| && w != 2 * MarginGraphW
      && !Flat(s)
      && EntriesPerLabel(EntryWidth(w, |s|)) == 0
    ensures r == Err(ZeroLabelInterval) ==> w < 2 * MarginGraphW
    ensures r.Ok? ==>
      && 2 <= |s| && EntryWidth(w, |s|) != 0.0
      && r.value == Scale(EntryWidth(w, |s|), EntriesPerLabel(EntryWidth(w, |s|)), MinTemp(s), MaxTemp(s) - MinTemp(s))
      && r.value.k != 0 && 0 < r.value.range
  {
    var n := |s|;
    if n == 0 then Err(NoEntries)
    else if n == 1 then Err(SingleEntry)
    else
      var e := EntryWidth(w, n);
      EntryWidthSign(w, n);
      if e == 0.0 then Err(ZeroEntryWidth)
      else
        var lo, hi := MinTemp(s), MaxTemp(s);
        RangeZeroIffFlat(s);
        if hi - lo == 0 then Err(FlatTemperatures)
        else
          var k := EntriesPerLabel(e);
          if k == 0 then
            assert 0.0 < e ==> 1 <= k by {
              if 0.0 < e {
                EntriesPerLabelLeast(e);
              }
            }
            Err(ZeroLabelInterval)
          else
            Ok(Scale(e, k, lo, hi - lo))
  }

  /** Point `i` of the temperature curve `ps`: at the x of entry `i`, at the
      height of its temperature. */
  predicate TempPlaced(ps: seq<Point>, s: seq<Sample>, sc: Scale, h: int, i: int)
    requires 0 <= i < |ps| && i < |s| && sc.range != 0
  {
    ps[i] == Point(EntryX(i, sc.e), TempY(s[i].temp, sc.lo, sc.range, h))
  }

  /** Point `i` of the precipitation curve `ps`: at the x of entry `i`, at
      the height of its probability. */
  predicate PrecipPlaced(ps: seq<Point>, s: seq<Sample>, sc: Scale, h: int, i: int)
    requires 0 <= i < |ps| && i < |s|
  {
    ps[i] == Point(EntryX(i, sc.e), PrecipY(s[i].precip, h))
  }

  /** The temperature curve: one point per sample, each placed from its own
      index. */
  function TempCurve(s: seq<Sample>, sc: Scale, h: int): (ps: seq<Point>)
    requires sc.range != 0
    ensures |ps| == |s|
    ensures forall i :: 0 <= i < |s| ==> TempPlaced(ps, s, sc, h, i)
  {
    if |s| == 0 then []
    else
      var n := |s| - 1;
      var init := TempCurve(s[..n], sc, h);
      var ps := init + [Point(EntryX(n, sc.e), TempY(s[n].temp, sc.lo, sc.range, h))];
      assert forall i :: 0 <= i < |s| ==> TempPlaced(ps, s, sc, h, i) by {
        forall i | 0 <= i < |s|
          ensures TempPlaced(ps, s, sc, h, i)
        {
          if i < n {
            assert TempPlaced(init, s[..n], sc, h, i);
            assert s[..n][i] == s[i];
          }
        }
      }
      ps
  }

  /** The precipitation curve: one point per sample, each placed from its
      own index. */
  function PrecipCurve(s: seq<Sample>, sc: Scale, h: int): (ps: seq<Point>)
    ensures |ps| == |s|
    ensures forall i :: 0 <= i < |s| ==> PrecipPlaced(ps, s, sc, h, i)
  {
    if |s| == 0 then []
    else
      var n := |s| - 1;
      var init := PrecipCurve(s[..n], sc, h);
      var ps := init + [Point(EntryX(n, sc.e), PrecipY(s[n].precip, h))];
      assert forall i :: 0 <= i < |s| ==> PrecipPlaced(ps, s, sc, h, i) by {
        forall i | 0 <= i < |s|
          ensures PrecipPlaced(ps, s, sc, h, i)
        {
          if i < n {
            assert PrecipPlaced(init, s[..n], sc, h, i);
            assert s[..n][i] == s[i];
          }
        }
      }
      ps
  }

  /** The two points that close the precipitation area along the baseline,
      from the right margin back to the left. */
  function Closing(w: int, h: int): seq<Point>
  {
    [Point(w - MarginGraphW, Baseline(h)), Point(MarginGraphW, Baseline(h))]
  }

  /** The chart of one redraw under scaling `sc`: the precipitation curve is
      followed by its two closing points. */
  function Build(w: int, h: int, start: int, s: seq<Sample>, sc: Scale): (c: Chart)
    requires sc.range != 0 && sc.k != 0
    ensures |c.temps| == |s| && |c.precip| == |s| + 2 && |c.marks| == |s|
    ensures c.precip[|s|] == Point(w - MarginGraphW, Baseline(h))
    ensures c.precip[|s| + 1] == Point(MarginGraphW, Baseline(h))
    ensures forall i :: 0 <= i < |s| ==> TempPlaced(c.temps, s, sc, h, i)
    ensures forall i :: 0 <= i < |s| ==> PrecipPlaced(c.precip, s, sc, h, i)
    ensures forall i :: 0 <= i < |s| ==> c.marks[i] == MarkAt(i, sc.k, start)
  {
    var curve := PrecipCurve(s, sc, h);
    var precip := curve + Closing(w, h);
    assert forall i :: 0 <= i < |s| ==> PrecipPlaced(precip, s, sc, h, i) by {
      forall i | 0 <= i < |s|
        ensures PrecipPlaced(precip, s, sc, h, i)
      {
        assert PrecipPlaced(curve, s, sc, h, i);
      }
    }
    Chart(TempCurve(s, sc, h), precip, seq(|s|, i => MarkAt(i, sc.k, start)))
  }

  /** The layout of one redraw of a `w` by `h` canvas whose first sample is
      for hour `start`. */
  function Layout(w: int, h: int, start: int, s: seq<Sample>): (r: Result<Chart, LayoutError>)
    ensures r == Err(NoEntries) <==> |s| == 0
    ensures r == Err(SingleEntry) <==> |s| == 1
    ensures r == Err(ZeroEntryWidth) <==> 2 <= |s| && w == 2 * MarginGraphW
    ensures r == Err(FlatTemperatures) <==>
      2 <= |s| && w != 2 * MarginGraphW && Flat(s)
    ensures r == Err(ZeroLabelInterval) <==>
      && 2 <= |s| && w != 2 * MarginGraphW
      && !Flat(s)
      && EntriesPerLabel(EntryWidth(w, |s|)) == 0
    ensures 2 * MarginGraphW < w ==>
      (r.Ok? <==> 2 <= |s| && !Flat(s))
  {
    match Plan(w, s)
    case Err(why) => Err(why)
    case Ok(sc) => Ok(Build(w, h, start, s, sc))
  }

  /** The drawing commands of one redraw, or why it has no defined layout. */
  function Redraw(w: int, h: int, start: int, s: seq<Sample>): Result<seq<Command>, LayoutError>
  {
    match Layout(w, h, start, s)
    case Err(why) => Err(why)
    case Ok(c) => Ok(Commands(w, h, c))
  }
}

=== FILE: graph_properties.dfy ===
/**
 Properties of a whole redraw of the graph layer: the shape of the point
 sequences, where they fall on the canvas, and how the hour axis is
 decorated. Most properties are first shown for the chart `Build` makes
 under any scaling that fits the samples, then carried over to `Layout`.
 None of these lemmas is proved by induction, so each carries
 `{:induction false}`: the induction hypotheses Dafny would otherwise add over
 the sample sequence are never needed and only burden the solver.
 */
module GraphProperties {
  import opened Forecast
  import opened Geometry
  import opened Labels
  import opened GraphLayer

  /** A scaling under which every sample's temperature lies in the
      temperature range and both divisions are defined. */
  predicate Fits(s: seq<Sample>, sc: Scale)
  {
    && 0 < sc.range && sc.k != 0
    && forall i :: 0 <= i < |s| ==> sc.lo <= s[i].temp <= sc.lo + sc.range
  }

  /** A layout is defined exactly when `Plan` finds a scaling. */
  lemma {:induction false} LayoutNeedsPlan(w: int, h: int, start: int, s: seq<Sample>)
    ensures Layout(w, h, start, s).Ok? <==> Plan(w, s).Ok?
  {
  }

  /** With a scaling, the layout is the chart built under it; the scaling
      fits the samples, and its range runs from the coldest to the warmest. */
  lemma {:induction false} LayoutBuilds(w: int, h: int, start: int, s: seq<Sample>)
    requires Plan(w, s).Ok?
    ensures 2 <= |s|
    ensures Layout(w, h, start, s) == Ok(Build(w, h, start, s, Plan(w, s).value))
    ensures var sc := Plan(w, s).value;
      && Fits(s, sc) && sc.e == EntryWidth(w, |s|)
      && sc.lo == MinTemp(s) && sc.lo + sc.range == MaxTemp(s)
  {
  }

  /** Under any scaling, the temperature curve has one point per sample and
      the precipitation area two more, closing it along the baseline from the
      right margin back to the left; both curves put entry `i` at the same x. */
  lemma {:induction false} BuildShape(w: int, h: int, start: int, s: seq<Sample>, sc: Scale)
    requires sc.range != 0 && sc.k != 0
    ensures var c, n := Build(w, h, start, s, sc), |s|;
      && |c.temps| == n && |c.precip| == n + 2 && |c.marks| == n
      && c.precip[n] == Point(w - MarginGraphW, Baseline(h))
      && c.precip[n + 1] == Point(MarginGraphW, Baseline(h))
      && forall i :: 0 <= i < n ==> c.temps[i].x == c.precip[i].x == EntryX(i, sc.e)
  {
    var c := Build(w, h, start, s, sc);
    forall i | 0 <= i < |s|
      ensures c.temps[i].x == c.precip[i].x == EntryX(i, sc.e)
    {
      assert TempPlaced(c.temps, s, sc, h, i);
      assert PrecipPlaced(c.precip, s, sc, h, i);
    }
  }

  /** A layout with a scaling has one temperature point and one mark per
      sample and the precipitation curve followed by its closing points; entry
      `i` of both curves is at the x of entry `i`, the first on the left margin
      and the last, exactly, above the first closing point on the right margin. */
  lemma {:induction false} ChartShape(w: int, h: int, start: int, s: seq<Sample>)
    requires Plan(w, s).Ok?
    ensures Layout(w, h, start, s).Ok?
    ensures var c, n := Layout(w, h, start, s).value, |s|;
      && |c.temps| == n && |c.precip| == n + 2 && |c.marks| == n
      && c.precip[n..] == Closing(w, h)
      && (forall i :: 0 <= i < n ==> c.temps[i].x == c.precip[i].x == EntryX(i, EntryWidth(w, n)))
      && c.temps[0].x == MarginGraphW && c.temps[n - 1].x == c.precip[n].x
  {
    LayoutBuilds(w, h, start, s);
    var c := Layout(w, h, start, s).value;
    BuildShape(w, h, start, s, Plan(w, s).value);
    assert c.precip[|s|..] == Closing(w, h);
    EntryXEnds(w, |s|);
  }

  /** Entry `i` of a layout with a scaling sits at the x of entry `i` and at
      the heights of its own temperature and probability. */
  lemma {:induction false} EntryOfLayout(w: int, h: int, start: int, s: seq<Sample>, i: int)
    requires Plan(w, s).Ok? && 0 <= i < |s|
    ensures Layout(w, h, start, s).Ok?
    ensures var c, e := Layout(w, h, start, s).value, EntryWidth(w, |s|);
      && 2 <= |s| && e != 0.0 && MinTemp(s) < MaxTemp(s)
      && c.temps[i] == Point(EntryX(i, e), TempY(s[i].temp, MinTemp(s), MaxTemp(s) - MinTemp(s), h))
      && c.precip[i] == Point(EntryX(i, e), PrecipY(s[i].precip, h))
  {
    LayoutBuilds(w, h, start, s);
    var sc := Plan(w, s).value;
    var c := Build(w, h, start, s, sc);
    assert TempPlaced(c.temps, s, sc, h, i);
    assert PrecipPlaced(c.precip, s, sc, h, i);
  }

  /** With a positive spacing every point of both curves, closing points
      included, lies between the margins, and x never decreases along either
      curve. */
  lemma {:induction false} BuildX(w: int, h: int, start: int, s: seq<Sample>, sc: Scale)
    requires sc.range != 0 && sc.k != 0 && 2 <= |s| && 2 * MarginGraphW < w
    requires sc.e == EntryWidth(w, |s|)
    ensures var c := Build(w, h, start, s, sc);
      && (forall i :: 0 <= i < |c.precip| ==> MarginGraphW <= c.precip[i].x <= w - MarginGraphW)
      && (forall i :: 0 <= i < |c.temps| ==> MarginGraphW <= c.temps[i].x <= w - MarginGraphW)
      && (forall i, j :: 0 <= i <= j < |s| ==> c.temps[i].x <= c.temps[j].x && c.precip[i].x <= c.precip[j].x)
  {
    var c := Build(w, h, start, s, sc);
    BuildShape(w, h, start, s, sc);
    EntryWidthSign(w, |s|);
    forall i | 0 <= i < |c.precip|
      ensures MarginGraphW <= c.precip[i].x <= w - MarginGraphW
      ensures i < |s| ==> MarginGraphW <= c.temps[i].x <= w - MarginGraphW
    {
      if i < |s| {
        EntryXInside(w, |s|, i);
      }
    }
    forall i, j | 0 <= i <= j < |s|
      ensures c.temps[i].x <= c.temps[j].x && c.precip[i].x <= c.precip[j].x
    {
      EntryXMonotone(i, j, sc.e);
    }
  }

  /** On a canvas wider than its side margins every point of a layout,
      closing points included, lies between the margins, and x never
      decreases along either curve. */
  lemma {:induction false} ChartX(w: int, h: int, start: int, s: seq<Sample>)
    requires Plan(w, s).Ok?
    requires 2 * MarginGraphW < w
    ensures Layout(w, h, start, s).Ok?
    ensures var c := Layout(w, h, start, s).value;
      && (forall i :: 0 <= i < |c.precip| ==> MarginGraphW <= c.precip[i].x <= w - MarginGraphW)
      && (forall i :: 0 <= i < |c.temps| ==> MarginGraphW <= c.temps[i].x <= w - MarginGraphW)
      && (forall i, j :: 0 <= i <= j < |s| ==> c.temps[i].x <= c.temps[j].x && c.precip[i].x <= c.precip[j].x)
  {
    LayoutBuilds(w, h, start, s);
    BuildX(w, h, start, s, Plan(w, s).value);
  }

  /** With probabilities in 0..100 the precipitation area lies between the
      top of the canvas and the baseline, and a dry entry lies on the
      baseline. */
  lemma {:induction false} BuildPrecip(w: int, h: int, start: int, s: seq<Sample>, sc: Scale)
    requires sc.range != 0 && sc.k != 0 && BottomAxisH <= h
    requires forall i :: 0 <= i < |s| ==> s[i].precip <= 100
    ensures var c := Build(w, h, start, s, sc);
      && (forall i :: 0 <= i < |c.precip| ==> 0 <= c.precip[i].y <= Baseline(h))
      && (forall i :: 0 <= i < |s| && s[i].precip == 0 ==> c.precip[i].y == Baseline(h))
  {
    var c := Build(w, h, start, s, sc);
    forall i | 0 <= i < |c.precip|
      ensures 0 <= c.precip[i].y <= Baseline(h)
      ensures i < |s| && s[i].precip == 0 ==> c.precip[i].y == Baseline(h)
    {
      if i < |s| {
        assert PrecipPlaced(c.precip, s, sc, h, i);
        PrecipYInside(s[i].precip, h);
      }
    }
  }

  /** On a canvas at least as tall as the bottom axis, with probabilities in
      0..100, the precipitation area of a layout lies between the top of the
      canvas and the baseline, and a dry entry lies on the baseline. */
  lemma {:induction false} ChartPrecip(w: int, h: int, start: int, s: seq<Sample>)
    requires Plan(w, s).Ok?
    requires BottomAxisH <= h
    requires forall i :: 0 <= i < |s| ==> s[i].precip <= 100
    ensures Layout(w, h, start, s).Ok?
    ensures var c := Layout(w, h, start, s).value;
      && (forall i :: 0 <= i < |c.precip| ==> 0 <= c.precip[i].y <= Baseline(h))
      && (forall i :: 0 <= i < |s| && s[i].precip == 0 ==> c.precip[i].y == Baseline(h))
  {
    LayoutBuilds(w, h, start, s);
    BuildPrecip(w, h, start, s, Plan(w, s).value);
  }

  /** Under a fitting scaling the temperature curve lies inside its band,
      the lowest temperature on the band's bottom edge and the highest on its
      top edge, and a warmer sample is never drawn below a colder one. */
  lemma {:induction false} BuildTemps(w: int, h: int, start: int, s: seq<Sample>, sc: Scale)
    requires Fits(s, sc) && MarginTempH * 2 + BottomAxisH <= h
    ensures var c := Build(w, h, start, s, sc);
      && (forall i :: 0 <= i < |s| ==> MarginTempH <= c.temps[i].y <= Baseline(h) - MarginTempH)
      && (forall i :: 0 <= i < |s| && s[i].temp == sc.lo ==> c.temps[i].y == Baseline(h) - MarginTempH)
      && (forall i :: 0 <= i < |s| && s[i].temp == sc.lo + sc.range ==> c.temps[i].y == MarginTempH)
      && (forall i, j :: 0 <= i < |s| && 0 <= j < |s| && s[i].temp <= s[j].temp ==> c.temps[j].y <= c.temps[i].y)
  {
    var c := Build(w, h, start, s, sc);
    forall i | 0 <= i < |s|
      ensures c.temps[i].y == TempY(s[i].temp, sc.lo, sc.range, h)
    {
      assert TempPlaced(c.temps, s, sc, h, i);
    }
    forall i | 0 <= i < |s|
      ensures MarginTempH <= c.temps[i].y <= Baseline(h) - MarginTempH
      ensures s[i].temp == sc.lo ==> c.temps[i].y == Baseline(h) - MarginTempH
      ensures s[i].temp == sc.lo + sc.range ==> c.temps[i].y == MarginTempH
    {
      TempYInside(s[i].temp, sc.lo, sc.range, h);
    }
    forall i, j | 0 <= i < |s| && 0 <= j < |s| && s[i].temp <= s[j].temp
      ensures c.temps[j].y <= c.temps[i].y
    {
      TempYMonotone(s[i].temp, s[j].temp, sc.lo, sc.range, h);
    }
  }

  /** On a canvas tall enough for its margins the temperature curve of a
      layout lies inside its band; the coldest samples lie on the band's
      bottom edge, the warmest on its top edge, and a warmer sample is never
      drawn below a colder one. */
  lemma {:induction false} ChartTemps(w: int, h: int, start: int, s: seq<Sample>)
    requires Plan(w, s).Ok?
    requires MarginTempH * 2 + BottomAxisH <= h
    ensures Layout(w, h, start, s).Ok?
    ensures var c := Layout(w, h, start, s).value;
      forall i :: 0 <= i < |s| ==> MarginTempH <= c.temps[i].y <= Baseline(h) - MarginTempH
    ensures var c := Layout(w, h, start, s).value;
      forall i :: 0 <= i < |s| && s[i].temp == MinTemp(s) ==> c.temps[i].y == Baseline(h) - MarginTempH
    ensures var c := Layout(w, h, start, s).value;
      forall i :: 0 <= i < |s| && s[i].temp == MaxTemp(s) ==> c.temps[i].y == MarginTempH
    ensures var c := Layout(w, h, start, s).value;
      forall i, j :: 0 <= i < |s| && 0 <= j < |s| && s[i].temp <= s[j].temp ==> c.temps[j].y <= c.temps[i].y
  {
    LayoutBuilds(w, h, start, s);
    BuildTemps(w, h, start, s, Plan(w, s).value);
  }

  /** Entry `i` is labelled exactly when the interval `k` divides `i`, with
      the hour of the day of that entry, and gets a tick exactly when
      `k >= 2` and `i` lies `k - k / 2` entries past a label. */
  lemma {:induction false} BuildMarks(w: int, h: int, start: int, s: seq<Sample>, sc: Scale)
    requires sc.range != 0 && 1 <= sc.k && 0 <= start
    ensures var c, k := Build(w, h, start, s, sc), sc.k;
      forall i :: 0 <= i < |s| ==>
        && (c.marks[i].HourLabel? <==> i % k == 0)
        && (c.marks[i].HourLabel? ==> c.marks[i].hour == (start + i) % 24)
        && (c.marks[i].Tick? <==> 2 <= k && i % k == k - k / 2)
  {
    forall i | 0 <= i < |s|
      ensures MarkAt(i, sc.k, start).HourLabel? <==> i % sc.k == 0
      ensures MarkAt(i, sc.k, start).HourLabel? ==> MarkAt(i, sc.k, start).hour == (start + i) % 24
      ensures MarkAt(i, sc.k, start).Tick? <==> 2 <= sc.k && i % sc.k == sc.k - sc.k / 2
    {
      MarkLabels(i, sc.k, start);
      MarkTicks(i, sc.k, start);
    }
  }

  /** A redraw with a scaling issues the two axes, then for each decorated
      entry in order its hour label or tick at the entry's x, then the closed
      precipitation area of `n + 2` points, the open precipitation curve over
      its `n` entry points, and the temperature curve of `n` points. */
  lemma {:induction false} RedrawCommands(w: int, h: int, start: int, s: seq<Sample>)
    requires Plan(w, s).Ok?
    ensures Redraw(w, h, start, s).Ok?
    ensures var c, r := Layout(w, h, start, s).value, Redraw(w, h, start, s).value;
      && |r| == 5 + Decorated(c.marks)
      && r[0] == DrawLine(Point(0, Baseline(h)), Point(w, Baseline(h)))
      && r[1] == DrawLine(Point(0, 0), Point(0, Baseline(h)))
      && r[|r| - 3] == FillPath(c.precip) && |c.precip| == |s| + 2
      && r[|r| - 2] == StrokePath(c.precip[..|s|], 1)
      && r[|r| - 1] == StrokePath(c.temps, 3) && |c.temps| == |s|
    ensures var c, r := Layout(w, h, start, s).value, Redraw(w, h, start, s).value;
      forall i :: 0 <= i < |s| && !c.marks[i].NoMark? ==> 2 + Decorated(c.marks[..i]) < |r| - 3
    ensures var c, r, e := Layout(w, h, start, s).value, Redraw(w, h, start, s).value, EntryWidth(w, |s|);
      forall i :: 0 <= i < |s| && c.marks[i].HourLabel? ==>
        r[2 + Decorated(c.marks[..i])] == DrawText(c.marks[i].hour, LabelBox(EntryX(i, e), h))
    ensures var c, r, e := Layout(w, h, start, s).value, Redraw(w, h, start, s).value, EntryWidth(w, |s|);
      forall i :: 0 <= i < |s| && c.marks[i].Tick? ==>
        r[2 + Decorated(c.marks[..i])] == TickLine(EntryX(i, e), h)
  {
    ChartShape(w, h, start, s);
    var c := Layout(w, h, start, s).value;
    forall i | 0 <= i < |s|
      ensures !c.marks[i].NoMark? ==> 2 + Decorated(c.marks[..i]) < |Commands(w, h, c)| - 3
      ensures c.marks[i].HourLabel? ==>
        Commands(w, h, c)[2 + Decorated(c.marks[..i])] == DrawText(c.marks[i].hour, LabelBox(EntryX(i, EntryWidth(w, |s|)), h))
      ensures c.marks[i].Tick? ==>
        Commands(w, h, c)[2 + Decorated(c.marks[..i])] == TickLine(EntryX(i, EntryWidth(w, |s|)), h)
    {
      EntryCommand(w, h, c, i);
    }
  }

  /** With a positive spacing the label interval `k` of a layout with entries
      is at least one, and its marks follow `BuildMarks`. */
  lemma {:induction false} ChartMarks(w: int, h: int, start: int, s: seq<Sample>)
    requires Plan(w, s).Ok?
    requires 2 * MarginGraphW < w && 0 <= start
    ensures Layout(w, h, start, s).Ok?
    ensures var c, k := Layout(w, h, start, s).value, EntriesPerLabel(EntryWidth(w, |s|));
      && 1 <= k
      && (forall i :: 0 <= i < |s| ==>
            && (c.marks[i].HourLabel? <==> i % k == 0)
            && (c.marks[i].HourLabel? ==> c.marks[i].hour == (start + i) % 24)
            && (c.marks[i].Tick? <==> 2 <= k && i % k == k - k / 2))
  {
    LayoutBuilds(w, h, start, s);
    EntryWidthSign(w, |s|);
    EntriesPerLabelLeast(EntryWidth(w, |s|));
    BuildMarks(w, h, start, s, Plan(w, s).value);
  }

  /** On a 144-pixel-wide canvas with 24 hourly entries starting at 06:00
      (and at least two distinct temperatures), the label interval is three
      entries: labels at entries 0, 3, ..., 21 and ticks at 2, 5, ..., 23. */
  lemma {:induction false} FullWidthDay(h: int, s: seq<Sample>)
    requires |s| == 24 && !Flat(s)
    ensures Layout(144, h, 6, s).Ok?
    ensures var c := Layout(144, h, 6, s).value;
      && c.marks[0] == HourLabel(6) && c.marks[1] == NoMark && c.marks[2] == Tick
      && c.marks[3] == HourLabel(9) && c.marks[21] == HourLabel(3) && c.marks[23] == Tick
  {
    EntriesPerLabelBelowCeiling();
    MarksOnFullWidthDay();
  }
}

=== FILE: labels.dfy ===
/**
 The decoration of the hour axis: how many entries one hour label spans,
 and which entries get a label, a tick between labels, or nothing.
 */
module Labels {
  import opened CNumerics
  import opened Geometry

  /** The axis decoration drawn under one entry. */
  datatype Mark = HourLabel(hour: int) | Tick | NoMark

  /** The number of entries per hour label for entry spacing `e`.
      `graph_update_proc` rounds `LabelPadding / e` "up" by adding `e - 1` to the
      dividend, an integer idiom applied here to a floating divisor. */
  function EntriesPerLabel(e: real): int
    requires e != 0.0
  {
    Trunc((LabelPadding as real + (e - 1.0)) / e)
  }

  /** The least integer not below `r`. */
  function Ceil(r: real): (c: int)
    ensures c as real - 1.0 < r <= c as real
  {
    -((-r).Floor)
  }

  /** For a positive spacing the label interval is the least positive number
      of entries spanning strictly more than `LabelPadding - 1` pixels, which
      is `floor(16 / e) + 1`. */
  lemma EntriesPerLabelLeast(e: real)
    requires 0.0 < e
    ensures EntriesPerLabel(e) == ((LabelPadding - 1) as real / e).Floor + 1
    ensures 1 <= EntriesPerLabel(e)
    ensures (LabelPadding - 1) as real < EntriesPerLabel(e) as real * e
    ensures (EntriesPerLabel(e) - 1) as real * e <= (LabelPadding - 1) as real
  {
    var x := (LabelPadding - 1) as real / e;
    assert x * e == (LabelPadding - 1) as real;
    assert (LabelPadding as real + (e - 1.0)) / e == x + 1.0;
    var f := x.Floor;
    assert (x + 1.0).Floor == f + 1;
    ScaleMonotone(f as real, x, e);
    assert x < (f + 1) as real;
    assert (f + 1) as real * e - x * e == ((f + 1) as real - x) * e;
  }

  /** A label interval never exceeds the true ceiling of `LabelPadding / e`. */
  lemma EntriesPerLabelAtMostCeiling(e: real)
    requires 0.0 < e
    ensures EntriesPerLabel(e) <= Ceil(LabelPadding as real / e)
  {
    EntriesPerLabelLeast(e);
    var k, c := EntriesPerLabel(e), Ceil(LabelPadding as real / e);
    var r := LabelPadding as real / e;
    assert r * e == LabelPadding as real;
    ScaleMonotone(r, c as real, e);
    if c < k {
      ScaleMonotone(c as real, (k - 1) as real, e);
      assert false;
    }
  }

  /** For a whole-number spacing the interval is exactly the ceiling of
      `LabelPadding / e`, as the comment in `graph_update_proc` intends. */
  lemma EntriesPerLabelCeilingWhenWhole(m: int)
    requires 0 < m
    ensures EntriesPerLabel(m as real) == Ceil(LabelPadding as real / m as real)
  {
    var e := m as real;
    var k, c := EntriesPerLabel(e), Ceil(LabelPadding as real / e);
    WholeIntervalSpansPadding(m);
    QuotientAtMost(LabelPadding as real, k as real, e);
    EntriesPerLabelAtMostCeiling(e);
    assert (c - 1) as real < k as real;
  }

  /** With a whole-number spacing, an interval spanning more than
      `LabelPadding - 1` pixels spans at least `LabelPadding`. */
  lemma WholeIntervalSpansPadding(m: int)
    requires 0 < m
    ensures LabelPadding as real <= EntriesPerLabel(m as real) as real * m as real
  {
    var k := EntriesPerLabel(m as real);
    EntriesPerLabelLeast(m as real);
    var p := k * m;
    assert p as real == k as real * m as real;
    assert LabelPadding <= p;
  }

  /** Dividing by a positive `e` a value at most `b * e` gives at most `b`. */
  lemma QuotientAtMost(a: real, b: real, e: real)
    requires 0.0 < e && a <= b * e
    ensures a / e <= b
  {
    var q := a / e;
    assert q * e == a;
    if b < q {
      assert 0.0 < (q - b) * e;
      assert q * e - b * e == (q - b) * e;
    }
  }

  /** On a 144-pixel-wide canvas with 24 entries the spacing is 130/23
      pixels; `graph_update_proc` computes an interval of 3 entries, which spans
      less than `LabelPadding`, where the ceiling of `LabelPadding / e` is 4. */
  lemma EntriesPerLabelBelowCeiling()
    ensures EntryWidth(144, 24) == 130.0 / 23.0
    ensures EntriesPerLabel(EntryWidth(144, 24)) == 3
    ensures Ceil(LabelPadding as real / EntryWidth(144, 24)) == 4
    ensures EntriesPerLabel(EntryWidth(144, 24)) as real * EntryWidth(144, 24) < LabelPadding as real
  {
    var e := EntryWidth(144, 24);
    assert e == 130.0 / 23.0;
    assert (LabelPadding as real + (e - 1.0)) / e == 498.0 / 130.0;
    assert (498.0 / 130.0).Floor == 3;
    assert LabelPadding as real / e == 391.0 / 130.0;
    assert (-(391.0 / 130.0)).Floor == -4;
  }

  /** The decoration of entry `i`, for label interval `k` and a first entry
      at hour `start`: a label every `k` entries, otherwise a tick where
      `i + k / 2` is a multiple of `k`, otherwise nothing. */
  function MarkAt(i: int, k: int, start: int): Mark
    requires k != 0
  {
    if Rem(i, k) == 0 then HourLabel(Rem(start + i, 24))
    else if Rem(i + Quot(k, 2), k) == 0 then Tick
    else NoMark
  }

  /** Labels sit exactly at the multiples of the interval and show the hour
      of the day of their entry. */
  lemma MarkLabels(i: int, k: int, start: int)
    requires 0 <= i && 1 <= k
    ensures MarkAt(i, k, start).HourLabel? <==> i % k == 0
    ensures MarkAt(i, k, start).HourLabel? && 0 <= start ==>
      MarkAt(i, k, start).hour == (start + i) % 24 && 0 <= MarkAt(i, k, start).hour < 24
  {
    QuotRemNonNegative(i, k);
    if 0 <= start {
      QuotRemNonNegative(start + i, 24);
    }
  }

  /** Ticks appear only when a label spans two or more entries, and then
      exactly at offset `k - k / 2` past each label. */
  lemma {:induction false} MarkTicks(i: int, k: int, start: int)
    requires 0 <= i && 1 <= k
    ensures MarkAt(i, k, start).Tick? <==> 2 <= k && i % k == k - k / 2
  {
    QuotRemNonNegative(i, k);
    QuotRemNonNegative(k, 2);
    QuotRemNonNegative(i + k / 2, k);
    var q, r := i / k, i % k;
    assert i == q * k + r;
    if r != 0 {
      var s := r + k / 2;
      if s < k {
        ModOfOffset(q, k, s);
        assert i + k / 2 == q * k + s;
      } else {
        ModOfOffset(q + 1, k, s - k);
        assert i + k / 2 == (q + 1) * k + (s - k);
      }
    }
  }

  /** Between two consecutive labels, at `m * k` and `(m + 1) * k`, there is
      exactly one tick when `k >= 2`, and every other entry there is bare. */
  lemma {:induction false} OneTickBetweenLabels(m: int, k: int, start: int)
    requires 0 <= m && 2 <= k
    ensures m * k < m * k + (k - k / 2) < (m + 1) * k
    ensures MarkAt(m * k + (k - k / 2), k, start) == Tick
    ensures forall j :: m * k < j < (m + 1) * k && j != m * k + (k - k / 2) ==>
      MarkAt(j, k, start) == NoMark
  {
    var t := m * k + (k - k / 2);
    assert (m + 1) * k == m * k + k;
    ModOfOffset(m, k, k - k / 2);
    MarkTicks(t, k, start);
    forall j | m * k < j < (m + 1) * k && j != t
      ensures MarkAt(j, k, start) == NoMark
    {
      ModOfOffset(m, k, j - m * k);
      MarkLabels(j, k, start);
      MarkTicks(j, k, start);
    }
  }

  /** With interval 3 and 24 entries starting at 06:00 the labels
      read 6, 9, ..., 3 at entries 0, 3, ..., 21 and the ticks sit at
      entries 2, 5, ..., 23. */
  lemma MarksOnFullWidthDay()
    ensures MarkAt(0, 3, 6) == HourLabel(6)
    ensures MarkAt(1, 3, 6) == NoMark
    ensures MarkAt(2, 3, 6) == Tick
    ensures MarkAt(3, 3, 6) == HourLabel(9)
    ensures MarkAt(21, 3, 6) == HourLabel(3)
    ensures MarkAt(23, 3, 6) == Tick
  {
    MarkLabels(0, 3, 6);
    MarkLabels(1, 3, 6);
    MarkTicks(1, 3, 6);
    MarkLabels(2, 3, 6);
    MarkTicks(2, 3, 6);
    MarkLabels(3, 3, 6);
    MarkLabels(21, 3, 6);
    MarkLabels(23, 3, 6);
    MarkTicks(23, 3, 6);
  }
}
